=== FILE: README.md ===
# Elastica bundle core: mapping builder and object persister

This project is a Dafny model of two classes of the Elastica bundle, with proofs about it.

- **The mapping builder** turns an index's configuration into the mapping document sent to Elasticsearch. It has three parts:
  - `buildIndexMapping` collects one type mapping per type name, plus the index settings.
  - `buildTypeMapping` applies the type's options, cleans up `dynamic_templates` and `_parent`, normalises `properties`, records the model class in `_meta`, and encodes an empty mapping as `{}`.
  - `fixProperties` normalises a field tree. It drops `property_path`, defaults `type` to `string`, and recurses into `fields` of a `multi_field` and into nested `properties`.
- **The object persister** turns domain objects into Elastica documents with a transformer. It sends them in a single bulk call per operation: insert, replace (as upserts) or delete. It can also delete documents by identifier.
  - A bulk failure is logged when a logger is set, and re-thrown otherwise.
  - Any other failure propagates unchanged.

The model's building blocks:

- **PHP arrays** (`Assoc`, `PhpValue`) are ordered association lists.
  - `$m[$k] = $v` overwrites an entry in place or appends one.
  - `unset` removes an entry.
  - `isset`, `empty` and PHP truthiness are modelled for null, booleans, integers, strings and arrays.
  - Assigning into an absent entry, `null` or `false` creates an empty array first (autovivification). PHP before 7.1 does the same for the empty string; the model follows PHP 7.1 and later, which do not.
- **The builder** (`MappingBuilder`) is a set of pure functions. `MappingBuilderSpec` states each output key's rule independently of the steps and proves it.
- **The persister** (`ObjectPersister`) is a set of pure functions. Each returns a `Run`:
  - the objects handed to the transformer;
  - the bulk calls made;
  - the exceptions logged;
  - whether the operation returned or threw, and what.
- **External parts become parameters:**
  - the transformer is a function from object and field list to a document or an error;
  - the Elastica client is a function from bulk call to reply;
  - the class table for `instanceof` is a parent map.

## Model

| member | source | states |
|---|---|---|
| MappingBuilder.FixProperties | Index/MappingBuilder.php:119-137 | A field tree keeps exactly its field names, in order. A scalar passed in is returned unchanged. |
| MappingBuilder.FixField | Index/MappingBuilder.php:121-135 | One field definition: an array, `null` or `false` comes back as an array; any other scalar comes back unchanged. What the array holds is stated by `MappingBuilderSpec.FixFieldSound`. |
| MappingBuilder.FixAttributes | Index/MappingBuilder.php:121-135 | One loop iteration on an array field leaves no `property_path` and a set `type`. `MappingBuilderSpec.FixAttributesShape` gives every attribute's rule. |
| MappingBuilderSpec.FixPropertiesSound | Index/MappingBuilder.php:119-137 | At every depth, each field loses `property_path` and has a `type`: the set one, or "string". `fields` is normalised only under a set `multi_field` type. Set `properties` are normalised. Every other attribute is unchanged. A null or false field becomes `{type: string}`. |
| MappingBuilderSpec.FixAttributesShape | Index/MappingBuilder.php:121-132 | One loop iteration on an array field: what `property_path`, `type`, `fields`, `properties` and every other attribute become. |
| MappingBuilderSpec.FixFieldSound | Index/MappingBuilder.php:121-135 | One field definition meets the normalisation rule, including the nested trees. |
| MappingBuilderSpec.FixPropertiesIdempotent | Index/MappingBuilder.php:119-137 | Normalising an already normalised field tree changes nothing. |
| MappingBuilderSpec.FixFieldIdempotent | Index/MappingBuilder.php:121-135 | Normalising one normalised field definition again changes nothing. |
| MappingBuilderSpec.CompletionFieldNormalised | Index/MappingBuilder.php:121-135 | The skip list exempts nothing. A `completion` field still loses `property_path`, keeps its type and has nested `properties` normalised. |
| MappingBuilder.SetIf | Index/MappingBuilder.php:65-83 | A conditional assignment writes its key only when the option is present. Every other key is unchanged and keys stay unique. |
| MappingBuilder.ApplyOptions | Index/MappingBuilder.php:65-83 | Copying the options into the raw mapping keeps its keys unique. Where each option lands is stated by `MappingBuilder.ApplyOptionsSpec`. |
| MappingBuilder.ApplyOptionsSpec | Index/MappingBuilder.php:65-83 | After the option step, each key holds its option's value when that option is non-null; the analyzer must also be truthy. Otherwise the key holds the raw mapping's value. |
| MappingBuilderSpec.OptionOverrideRule | Index/MappingBuilder.php:63-83 | In the final mapping, an option key holds the option's value when set. Otherwise, and for every key the builder never touches, it holds the raw mapping's value. |
| MappingBuilder.DropEmptyTemplates | Index/MappingBuilder.php:85-87 | A set but empty `dynamic_templates` is removed. Otherwise the array is unchanged. |
| MappingBuilderSpec.TemplatesRule | Index/MappingBuilder.php:85-87 | In the final mapping, `dynamic_templates` is absent if it was set and empty, and untouched otherwise. |
| MappingBuilder.StripParent | Index/MappingBuilder.php:89-92 | An array `_parent` loses `property` and `identifier` and keeps its other entries. A missing or non-array `_parent` is untouched. |
| MappingBuilderSpec.ParentRule | Index/MappingBuilder.php:89-103 | In the final mapping, `_parent` is present exactly when it was. An array `_parent` holds neither `property` nor `identifier` but keeps everything else. |
| MappingBuilderSpec.SecondParentStripIsNoOp | Index/MappingBuilder.php:103 | The second removal of the `_parent` keys changes nothing. |
| MappingBuilder.FixTopProperties | Index/MappingBuilder.php:94-97 | `properties` becomes its normalised tree when truthy and is removed otherwise. Other keys are unchanged. |
| MappingBuilderSpec.PropertiesRule | Index/MappingBuilder.php:94-97 | In the final mapping, `properties` is absent when it was absent or falsy. Otherwise it is the normalised field tree. |
| MappingBuilder.AddModel | Index/MappingBuilder.php:99-101 | A truthy model name is written to `_meta.model`, keeping the other `_meta` entries. A missing, null or false `_meta` becomes `{model: …}`. With no truthy model, nothing changes. |
| MappingBuilderSpec.MetaRule | Index/MappingBuilder.php:99-101 | In the final mapping, `_meta.model` is the model name when it is truthy, the other `_meta` entries are kept, and `_meta` is otherwise untouched. |
| MappingBuilder.Assemble | Index/MappingBuilder.php:63-103 | A raw mapping with unique keys assembles into one with unique keys. What each key holds is stated by the `MappingBuilderSpec` lemmas, one per step. |
| MappingBuilder.BuildTypeMapping | Index/MappingBuilder.php:105-110 | The result is the empty-object marker exactly when the assembled mapping has no entries. Otherwise it is that non-empty mapping. |
| MappingBuilderSpec.EmptyObjectRule | Index/MappingBuilder.php:105-110 | The marker stands for exactly the mapping with no keys. An empty plain array, which would encode as `[]` instead of `{}`, is never returned. |
| MappingBuilder.CollectTypeMappings | Index/MappingBuilder.php:35-38 | The collected type mappings have each name once. Which names, and which mapping each holds, are stated by `CollectTypeMappingsName` and `CollectTypeMappingsLast`. |
| MappingBuilder.CollectTypeMappingsName | Index/MappingBuilder.php:35-38 | A name is a key of the collected type mappings exactly when some type has that name. |
| MappingBuilder.CollectTypeMappingsLast | Index/MappingBuilder.php:35-38 | A name maps to the type mapping of the last type with that name. |
| MappingBuilder.BuildIndexMapping | Index/MappingBuilder.php:33-52 | `mappings` is present exactly when there is a type, and is keyed by exactly the type names, once each. `settings` is present exactly when non-empty, and then verbatim. |
| MappingBuilder.IndexMappingOfType | Index/MappingBuilder.php:36-42 | In the index mapping, each type name holds the mapping of the last type of that name. |
| ObjectPersister.NewPersister | Persister/ObjectPersister.php:31-37 | The constructor stores the type, transformer, class and fields, and sets no logger. |
| ObjectPersister.SetLogger | Persister/ObjectPersister.php:50-53 | Installs the logger and changes nothing else. |
| ObjectPersister.HandlesObject | Persister/ObjectPersister.php:42-45 | True exactly when the configured class is the object's class or one of that class's ancestors. Names are compared as PHP looks classes up: case-insensitively, with a leading `\` ignored. Terminates on cyclic tables too. |
| ObjectPersister.LookupName | Persister/ObjectPersister.php:44 | The lookup key loses exactly one leading `\` and holds no upper-case ASCII letter. `ClassNameSpellings` states which spellings name the same class. |
| ObjectPersister.ClassNameSpellings | Persister/ObjectPersister.php:44 | Lower-casing the configured class name does not change which objects are handled. Neither does adding a leading `\` to a name that has none; a second `\` would change the lookup key, since PHP drops only one. |
| ObjectPersister.ClassNamesIgnoreCase | Persister/ObjectPersister.php:44 | A persister configured with `\Acme\User` handles an object of class `acme\user`. |
| ObjectPersister.IsAReflexiveTransitive | Persister/ObjectPersister.php:42-45 | The `instanceof` relation it decides is reflexive and transitive. |
| ObjectPersister.Log | Persister/ObjectPersister.php:62-69 | Returns and logs the exception once exactly when a logger is set. Otherwise it re-throws the same exception and logs nothing. |
| ObjectPersister.Submit | Persister/ObjectPersister.php:112-116 | One bulk call. Success returns. A bulk exception follows the logging policy. Any other error is thrown unlogged. |
| ObjectPersister.TransformToDocument | Persister/ObjectPersister.php:173-176 | No contract of its own. `TransformUsesConstructorFields` states that it applies the constructor's transformer to the object and the constructor's field list. |
| ObjectPersister.TransformUsesConstructorFields | Persister/ObjectPersister.php:173-176 | A document is the transformer's result for the object and the constructor's fields, whether or not a logger is set. |
| ObjectPersister.TransformAllSound | Persister/ObjectPersister.php:108-111 | The loop yields the documents of the leading objects that transform. It stops with the error of the first one that does not. |
| ObjectPersister.TransformAll | Persister/ObjectPersister.php:108-111 | The loop yields at most one document per object: exactly one each when no transform fails, and fewer when one does. `TransformAllSound` states which documents and which error. |
| ObjectPersister.TransformThenSubmit | Persister/ObjectPersister.php:106-117 | If every object transforms, exactly one bulk call is built from their documents in order, and the policy decides the outcome. Otherwise the run fails fast: the first transform error is thrown, and nothing is called or logged. |
| ObjectPersister.MarkUpserts | Persister/ObjectPersister.php:126-128 | Every document is marked as an upsert, in order, and nothing else about it changes. |
| ObjectPersister.InsertMany | Persister/ObjectPersister.php:106-117 | If every object transforms, there is one `addDocuments` call with their documents, in order, and the policy decides the outcome. Otherwise the first transform error is thrown and no call is made. |
| ObjectPersister.ReplaceMany | Persister/ObjectPersister.php:122-136 | As InsertMany, with one `updateDocuments` call and every document marked as an upsert. |
| ObjectPersister.DeleteMany | Persister/ObjectPersister.php:141-152 | As InsertMany, with one `deleteDocuments` call. |
| ObjectPersister.DeleteManyByIdentifiers | Persister/ObjectPersister.php:157-164 | One `deleteIds` call with the identifiers, the persister's index and type, and the routing, which defaults to `false`. Nothing is transformed. |
| ObjectPersister.InsertOne | Persister/ObjectPersister.php:74-77 | The object's document goes in one `addDocuments` call. A transform error is thrown with no call. |
| ObjectPersister.ReplaceOne | Persister/ObjectPersister.php:82-85 | The object's document, as an upsert, goes in one `updateDocuments` call. A transform error is thrown with no call. |
| ObjectPersister.DeleteOne | Persister/ObjectPersister.php:90-93 | The object's document goes in one `deleteDocuments` call. A transform error is thrown with no call. |
| ObjectPersister.DeleteById | Persister/ObjectPersister.php:98-101 | One `deleteIds` call for the single identifier, with routing `false`. |
| ObjectPersister.TransformAllAppend | Persister/ObjectPersister.php:108-111 | Transforming `a + b`, with all of `a` transforming, gives `a`'s documents then `b`'s, and fails exactly where `b` fails. |
| ObjectPersister.InsertManyConcatenates | Persister/ObjectPersister.php:106-117 | Inserting `a + b` sends the documents of inserting `a` followed by those of inserting `b`. |
| ObjectPersister.UpsertOnlyOnReplace | Persister/ObjectPersister.php:106-152 | Only replace sets the upsert flag. Insert and delete send the transformer's document unchanged. |
| ObjectPersister.LoggerDecidesBulkFailure | Persister/ObjectPersister.php:31-69 | A fresh persister re-throws a bulk failure. After `setLogger`, the same failure is logged once and swallowed. |

## Left out

- **Field-type comparison.** `type == 'multi_field'` is PHP's loose comparison. The model compares the string strictly, so a non-string `type` never counts as `multi_field`.
- MappingBuilder.FixField: a string, `true` or number field definition comes back unchanged. That is the model's choice, not PHP's behaviour; the next line says what PHP does.
- MappingBuilder.FixProperties: a field definition that is a string, empty or not, makes PHP fail at Index/MappingBuilder.php line 122, because string offsets cannot be unset. A definition that is `true` or a number is rejected at line 122 or 125: depending on the PHP version, it throws or warns and stays unchanged. The model leaves all of these definitions unchanged and does not model the failure.
- MappingBuilder.AddModel: a `_meta` holding `true`, a number or a non-empty string is not an array PHP can add `model` to. Depending on the PHP version, line 100 throws, warns, or overwrites a character of the string. PHP before 7.1 turns an empty-string `_meta` into `{model: …}`, as it does for `null` and `false`, while PHP 7.1 and later reject it. The model leaves the mapping unchanged in all of these cases.
- MappingBuilder.StripParent: a string `_parent` makes PHP fail at line 90, because string offsets cannot be unset. For `true` or a number, the outcome of that `unset` depends on the PHP version. The model leaves such a `_parent` untouched. For `false`, this is exactly what PHP does.
- **PHP array keys.** Numeric-string keys are not converted to integer keys, and floats and objects do not appear among configuration values.
- ObjectPersister.HandlesObject: it decides `instanceof` over parent classes only; implemented interfaces and class aliases are not modelled. Class names are compared by PHP's lookup key: ASCII lower-case, with one leading `\` dropped. The class table is taken as keyed by such names and does not model autoloading.
- **The Elastica client.** The client is a function from bulk call to reply; HTTP, serialisation and the bulk protocol are not modelled. What the logger writes is not modelled, only which exception is handed to it.
- **Mutation of documents.** `setDocAsUpsert(true)` mutates the transformer's document in place. The model builds a marked copy, and so assumes that each `transform` call returns a fresh document. A transformer that keeps or caches the document it returns would see the flag set by `replaceMany`, and a later `insertMany` of the same object would send it flagged; the model does not show that.
- **Other files.** The configuration classes (`IndexConfig` and `TypeConfig`), the transformer and the interface of the persister are not part of this model. Neither is the missing-object exception; they are inputs or declarations only.

=== FILE: assoc.dfy ===
/**
 Ordered association lists, the model of a PHP array: a sequence of
 key/value entries in insertion order. Reading a key returns its first
 entry; writing a key overwrites that entry in place or appends a new one;
 unsetting a key drops every entry for it.
 */
module Assoc {
  import opened Wrappers

  /** The keys of `m`, in order. */
  function Keys<K, V>(m: seq<(K, V)>): (ks: seq<K>)
    ensures |ks| == |m|
  {
    if m == [] then [] else [m[0].0] + Keys(m[1..])
  }

  /** `$m[$k]` when `array_key_exists($k, $m)`, and None otherwise. */
  function Lookup<K(==,!new), V>(m: seq<(K, V)>, k: K): (r: Option<V>)
    ensures r.Some? <==> k in Keys(m)
  {
    if m == [] then None
    else if m[0].0 == k then Some(m[0].1)
    else Lookup(m[1..], k)
  }

  /** A value read from `m` is the value of one of its entries. */
  lemma {:induction false} LookupIn<K(!new), V>(m: seq<(K, V)>, k: K)
    ensures Lookup(m, k).Some? ==> (k, Lookup(m, k).value) in m
  {
    if m != [] && m[0].0 != k {
      LookupIn(m[1..], k);
    }
  }

  /** No key occurs twice: the shape every PHP array has. */
  predicate UniqueKeys<K(==,!new), V>(m: seq<(K, V)>)
  {
    m == [] || (m[0].0 !in Keys(m[1..]) && UniqueKeys(m[1..]))
  }

  /** `$m[$k] = $v`: overwrites the entry of `k` where it stands, or appends one. */
  function Set<K(==,!new), V>(m: seq<(K, V)>, k: K, v: V): (r: seq<(K, V)>)
    ensures Lookup(r, k) == Some(v)
    ensures forall k' :: k' != k ==> Lookup(r, k') == Lookup(m, k')
    ensures Keys(r) == if k in Keys(m) then Keys(m) else Keys(m) + [k]
    ensures UniqueKeys(m) ==> UniqueKeys(r)
  {
    if m == [] then [(k, v)]
    else if m[0].0 == k then [(k, v)] + m[1..]
    else [m[0]] + Set(m[1..], k, v)
  }

  /** `unset($m[$k])`: no entry for `k` remains, every other entry stays in order. */
  function Remove<K(==,!new), V>(m: seq<(K, V)>, k: K): (r: seq<(K, V)>)
    ensures Lookup(r, k) == None
    ensures forall k' :: k' != k ==> Lookup(r, k') == Lookup(m, k')
    ensures forall k' :: k' in Keys(r) <==> k' in Keys(m) && k' != k
    ensures k !in Keys(m) ==> r == m
    ensures UniqueKeys(m) ==> UniqueKeys(r)
  {
    if m == [] then []
    else if m[0].0 == k then Remove(m[1..], k)
    else [m[0]] + Remove(m[1..], k)
  }

  /** Writing back the value a key already holds changes nothing. */
  lemma {:induction false} SetExisting<K(!new), V>(m: seq<(K, V)>, k: K)
    requires k in Keys(m)
    ensures Set(m, k, Lookup(m, k).value) == m
  {
    if m[0].0 != k {
      SetExisting(m[1..], k);
    }
  }

  /** The array built by assigning `$m[$k] = $v` for each pair in order,
      starting from an empty array. */
  function FromPairs<K(==,!new), V>(ps: seq<(K, V)>): (r: seq<(K, V)>)
    ensures UniqueKeys(r)
  {
    if ps == [] then []
    else Set(FromPairs(ps[..|ps| - 1]), ps[|ps| - 1].0, ps[|ps| - 1].1)
  }

  /** Exactly the assigned keys are present. */
  lemma {:induction false} FromPairsKeys<K(!new), V>(ps: seq<(K, V)>, k: K)
    ensures k in Keys(FromPairs(ps)) <==> k in Keys(ps)
  {
    if ps != [] {
      var init := ps[..|ps| - 1];
      var last := ps[|ps| - 1];
      var m := FromPairs(init);
      assert k in Keys(FromPairs(ps)) <==> k in Keys(m) || k == last.0 by {
        assert FromPairs(ps) == Set(m, last.0, last.1);
      }
      assert k in Keys(ps) <==> k in Keys(init) || k == last.0 by {
        assert ps == init + [last];
        KeysAppend(init, last);
      }
      FromPairsKeys(init, k);
    }
  }

  /** A key holds the value of its last assignment. */
  lemma {:induction false} FromPairsLast<K(!new), V>(ps: seq<(K, V)>, i: int)
    requires 0 <= i < |ps|
    requires forall j :: i < j < |ps| ==> ps[j].0 != ps[i].0
    ensures Lookup(FromPairs(ps), ps[i].0) == Some(ps[i].1)
  {
    if i < |ps| - 1 {
      var init := ps[..|ps| - 1];
      assert init[i] == ps[i];
      FromPairsLast(init, i);
    }
  }

  lemma {:induction false} KeyAt<K, V>(m: seq<(K, V)>, i: int)
    requires 0 <= i < |m|
    ensures Keys(m)[i] == m[i].0
  {
    if i > 0 {
      KeyAt(m[1..], i - 1);
    }
  }

  /** Entry-wise equal keys make equal key sequences. */
  lemma {:induction false} KeysEqual<K, V, W>(a: seq<(K, V)>, b: seq<(K, W)>)
    requires |a| == |b|
    requires forall i :: 0 <= i < |a| ==> a[i].0 == b[i].0
    ensures Keys(a) == Keys(b)
  {
    if a != [] {
      KeysEqual(a[1..], b[1..]);
    }
  }

  lemma {:induction false} KeysAppend<K, V>(m: seq<(K, V)>, e: (K, V))
    ensures Keys(m + [e]) == Keys(m) + [e.0]
  {
    if m != [] {
      assert (m + [e])[1..] == m[1..] + [e];
      KeysAppend(m[1..], e);
    }
  }
}

=== FILE: mapping_builder.dfy ===
/**
 The mapping builder: turns index and type configuration into the mapping
 document sent to Elasticsearch. Every step is a pure rewrite of a PHP
 array; `BuildTypeMapping` applies them in the order the source does.
 */
module MappingBuilder {
  import opened Wrappers
  import opened Assoc
  import opened PhpValue

  // Keys the builder reads or writes.
  const DYNAMIC_DATE_FORMATS := Name("dynamic_date_formats")
  const DATE_DETECTION := Name("date_detection")
  const NUMERIC_DETECTION := Name("numeric_detection")
  const ANALYZER := Name("analyzer")
  const DYNAMIC := Name("dynamic")
  const DYNAMIC_TEMPLATES := Name("dynamic_templates")
  const PARENT := Name("_parent")
  const PROPERTY := Name("property")
  const IDENTIFIER := Name("identifier")
  const PROPERTIES := Name("properties")
  const META := Name("_meta")
  const MODEL := Name("model")
  const PROPERTY_PATH := Name("property_path")
  const TYPE := Name("type")
  const FIELDS := Name("fields")

  const DEFAULT_TYPE := "string"
  const MULTI_FIELD := "multi_field"

  /** Field types the builder means to leave alone; the loop's test of it
      is its last statement, so it changes nothing (see FixAttributes). */
  const SkipTypes: seq<string> := ["completion"]

  /** The five top-level keys a type configuration option overrides. */
  const OptionKeys: set<Key> :=
    {DYNAMIC_DATE_FORMATS, DATE_DETECTION, NUMERIC_DETECTION, ANALYZER, DYNAMIC}

  /** Every top-level key `BuildTypeMapping` may change. */
  const TouchedKeys: set<Key> :=
    OptionKeys + {DYNAMIC_TEMPLATES, PARENT, PROPERTIES, META}

  /** Keys of a field definition `FixAttributes` may change. */
  const FieldKeys: set<Key> := {PROPERTY_PATH, TYPE, FIELDS, PROPERTIES}

  /** The `dynamic` mapping mode: true, false or "strict". */
  datatype Dynamic = DynamicTrue | DynamicFalse | DynamicStrict

  /** One document type of an index, as the configuration subsystem hands it over. */
  datatype TypeConfig = TypeConfig(
    name: string,
    mapping: PhpArray,
    analyzer: Option<string>,
    dynamic: Option<Dynamic>,
    dateDetection: Option<bool>,
    numericDetection: Option<bool>,
    dynamicDateFormats: Option<seq<string>>,
    model: Option<string>)

  /** One index: its types in configuration order and its free-form settings. */
  datatype IndexConfig = IndexConfig(name: string, types: seq<TypeConfig>, settings: PhpArray)

  /** A type's mapping, or the `new \ArrayObject()` that encodes as `{}`. */
  datatype TypeMapping = EmptyObject | Mapping(entries: PhpArray)

  /** The index mapping document; its only possible keys are `mappings` and `settings`. */
  datatype IndexMapping = IndexMapping(
    mappings: Option<seq<(string, TypeMapping)>>,
    settings: Option<PhpArray>)

  /** The keys and values a type mapping holds; none for the empty object. */
  function Body(t: TypeMapping): PhpArray
  {
    match t
    case EmptyObject => []
    case Mapping(es) => es
  }

  function DynamicValue(d: Dynamic): Value
  {
    match d
    case DynamicTrue => Bool(true)
    case DynamicFalse => Bool(false)
    case DynamicStrict => Str("strict")
  }

  // ---------------------------------------------------------------------
  // Field normalisation (fixProperties)
  // ---------------------------------------------------------------------

  /** fixProperties applied to a `properties` or `fields` value: every entry
      of an array is normalised as a field under its own name; anything else
      is left as it is, since `foreach` over a non-array does nothing. */
  function FixProperties(v: Value): (r: Value)
    decreases v, 2
    ensures r.Arr? <==> v.Arr?
    ensures v.Arr? ==> Keys(r.entries) == Keys(v.entries)
    ensures !v.Arr? ==> r == v
  {
    match v
    case Arr(es) =>
      var fixed := seq(|es|, i requires 0 <= i < |es| => (es[i].0, FixField(es[i].1)));
      KeysEqual(fixed, es);
      Arr(fixed)
    case _ => v
  }

  /** One field definition. PHP turns a `null` or `false` definition into
      an array on the assignment of its `type`, so it becomes `{type: string}`.
      PHP fails or warns on a string, `true` or number definition at
      Index/MappingBuilder.php lines 122 and 125; the model chooses to return
      such a definition unchanged. */
  function FixField(f: Value): (r: Value)
    decreases f, 1
    ensures r.Arr? <==> f.Arr? || Autovivifies(Some(f))
    ensures !r.Arr? ==> r == f
  {
    match f
    case Arr(_) => Arr(FixAttributes(f))
    case Null => Arr([(TYPE, Str(DEFAULT_TYPE))])
    case Bool(false) => Arr([(TYPE, Str(DEFAULT_TYPE))])
    case _ => f
  }

  /** The body of the loop of fixProperties for a field held as an array. */
  function FixAttributes(f: Value): (r: PhpArray)
    requires f.Arr?
    decreases f, 0
    ensures PROPERTY_PATH !in Keys(r)
    ensures IsSet(r, TYPE)
  {
    var a := f.entries;
    var a1 := Remove(a, PROPERTY_PATH);
    var a2 := if IsSet(a1, TYPE) then a1 else Set(a1, TYPE, Str(DEFAULT_TYPE));
    assert Lookup(a2, FIELDS) == Lookup(a, FIELDS);
    LookupIn(a, FIELDS);
    LookupIn(a, PROPERTIES);
    var a3 :=
      if Lookup(a2, TYPE) == Some(Str(MULTI_FIELD)) && IsSet(a2, FIELDS)
      then Set(a2, FIELDS, FixProperties(Lookup(a2, FIELDS).value))
      else a2;
    assert Lookup(a3, PROPERTIES) == Lookup(a, PROPERTIES);
    var a4 :=
      if IsSet(a3, PROPERTIES)
      then Set(a3, PROPERTIES, FixProperties(Lookup(a3, PROPERTIES).value))
      else a3;
    // The `in_array($type, $skipTypes)` test ends the loop body with a
    // `continue`, so a `completion` field is treated like any other.
    a4
  }

  // ---------------------------------------------------------------------
  // Type mapping (buildTypeMapping)
  // ---------------------------------------------------------------------

  /** The value a configuration option demands for top-level key `k`, if any:
      a non-null option overrides its key, an analyzer only when truthy. */
  function OptionValue(c: TypeConfig, k: Key): Option<Value>
  {
    if k == DYNAMIC_DATE_FORMATS && c.dynamicDateFormats.Some? then
      Some(Arr(ListOf(c.dynamicDateFormats.value)))
    else if k == DATE_DETECTION && c.dateDetection.Some? then
      Some(Bool(c.dateDetection.value))
    else if k == NUMERIC_DETECTION && c.numericDetection.Some? then
      Some(Bool(c.numericDetection.value))
    else if k == ANALYZER && c.analyzer.Some? && TruthyString(c.analyzer.value) then
      Some(Str(c.analyzer.value))
    else if k == DYNAMIC && c.dynamic.Some? then
      Some(DynamicValue(c.dynamic.value))
    else
      None
  }

  /** `if (<option set>) { $m[$k] = <option>; }` */
  function SetIf(m: PhpArray, k: Key, o: Option<Value>): (r: PhpArray)
    ensures Lookup(r, k) == if o.Some? then o else Lookup(m, k)
    ensures forall k' :: k' != k ==> Lookup(r, k') == Lookup(m, k')
    ensures UniqueKeys(m) ==> UniqueKeys(r)
  {
    if o.Some? then Set(m, k, o.value) else m
  }

  /** Index/MappingBuilder.php lines 65-83: copy the set options into the raw mapping, in source order. */
  function ApplyOptions(m: PhpArray, c: TypeConfig): (r: PhpArray)
    ensures UniqueKeys(m) ==> UniqueKeys(r)
  {
    var m1 := SetIf(m, DYNAMIC_DATE_FORMATS, OptionValue(c, DYNAMIC_DATE_FORMATS));
    var m2 := SetIf(m1, DATE_DETECTION, OptionValue(c, DATE_DETECTION));
    var m3 := SetIf(m2, NUMERIC_DETECTION, OptionValue(c, NUMERIC_DETECTION));
    var m4 := SetIf(m3, ANALYZER, OptionValue(c, ANALYZER));
    SetIf(m4, DYNAMIC, OptionValue(c, DYNAMIC))
  }

  /** The options land on their keys: a set option overrides its key, and a
      key no option claims keeps the raw mapping's value. */
  lemma {:induction false} ApplyOptionsSpec(m: PhpArray, c: TypeConfig, k: Key)
    ensures Lookup(ApplyOptions(m, c), k) ==
      if OptionValue(c, k).Some? then OptionValue(c, k) else Lookup(m, k)
  {
    var m1 := SetIf(m, DYNAMIC_DATE_FORMATS, OptionValue(c, DYNAMIC_DATE_FORMATS));
    var m2 := SetIf(m1, DATE_DETECTION, OptionValue(c, DATE_DETECTION));
    var m3 := SetIf(m2, NUMERIC_DETECTION, OptionValue(c, NUMERIC_DETECTION));
    var m4 := SetIf(m3, ANALYZER, OptionValue(c, ANALYZER));
    var r := SetIf(m4, DYNAMIC, OptionValue(c, DYNAMIC));
    if k in OptionKeys {
      // Each option key is written by its own step and by no other one.
      assert Lookup(m1, k) == if k == DYNAMIC_DATE_FORMATS && OptionValue(c, k).Some? then OptionValue(c, k) else Lookup(m, k);
      assert Lookup(m2, k) == if k == DATE_DETECTION && OptionValue(c, k).Some? then OptionValue(c, k) else Lookup(m1, k);
      assert Lookup(m3, k) == if k == NUMERIC_DETECTION && OptionValue(c, k).Some? then OptionValue(c, k) else Lookup(m2, k);
      assert Lookup(m4, k) == if k == ANALYZER && OptionValue(c, k).Some? then OptionValue(c, k) else Lookup(m3, k);
      assert Lookup(r, k) == if k == DYNAMIC && OptionValue(c, k).Some? then OptionValue(c, k) else Lookup(m4, k);
    } else {
      assert OptionValue(c, k).None?;
    }
  }

  /** `isset($m['dynamic_templates']) and empty($m['dynamic_templates'])`. */
  predicate EmptyTemplates(m: PhpArray)
  {
    IsSet(m, DYNAMIC_TEMPLATES) && !Truthy(Lookup(m, DYNAMIC_TEMPLATES).value)
  }

  /** Index/MappingBuilder.php lines 85-87: an empty `dynamic_templates` is dropped; anything else stays. */
  function DropEmptyTemplates(m: PhpArray): (r: PhpArray)
    ensures EmptyTemplates(m) ==> DYNAMIC_TEMPLATES !in Keys(r)
    ensures !EmptyTemplates(m) ==> r == m
    ensures forall k :: k != DYNAMIC_TEMPLATES ==> Lookup(r, k) == Lookup(m, k)
    ensures UniqueKeys(m) ==> UniqueKeys(r)
  {
    if EmptyTemplates(m) then Remove(m, DYNAMIC_TEMPLATES) else m
  }

  /** `q` is the `_parent` block `p` without its configuration-only
      `property` and `identifier` entries, and with every other entry kept. */
  ghost predicate ParentCleaned(p: PhpArray, q: PhpArray)
  {
    && PROPERTY !in Keys(q)
    && IDENTIFIER !in Keys(q)
    && forall k :: k != PROPERTY && k != IDENTIFIER ==> Lookup(q, k) == Lookup(p, k)
  }

  /** Index/MappingBuilder.php lines 89-92 and 103: `unset($m['_parent']['property'], $m['_parent']['identifier'])`.
      Only an array `_parent` has offsets to unset; `unset` never creates one.
      The two removals commute, so one order serves both places. */
  function StripParent(m: PhpArray): (r: PhpArray)
    ensures Lookup(r, PARENT).Some? <==> Lookup(m, PARENT).Some?
    ensures IsArrayAt(m, PARENT) ==>
      IsArrayAt(r, PARENT) && ParentCleaned(ArrayAt(m, PARENT), ArrayAt(r, PARENT))
    ensures !IsArrayAt(m, PARENT) ==> r == m
    ensures forall k :: k != PARENT ==> Lookup(r, k) == Lookup(m, k)
    ensures UniqueKeys(m) ==> UniqueKeys(r)
  {
    if IsArrayAt(m, PARENT)
    then Set(m, PARENT, Arr(Remove(Remove(ArrayAt(m, PARENT), PROPERTY), IDENTIFIER)))
    else m
  }

  /** Index/MappingBuilder.php lines 94-97: normalise the fields, then drop `properties` when it is absent,
      null or left empty. An absent `properties` stays absent. */
  function FixTopProperties(m: PhpArray): (r: PhpArray)
    ensures Lookup(r, PROPERTIES) ==
      match Lookup(m, PROPERTIES)
      case None => None
      case Some(v) => if Truthy(v) then Some(FixProperties(v)) else None
    ensures forall k :: k != PROPERTIES ==> Lookup(r, k) == Lookup(m, k)
    ensures UniqueKeys(m) ==> UniqueKeys(r)
  {
    match Lookup(m, PROPERTIES)
    case None => m
    case Some(v) =>
      var fixed := FixProperties(v);
      if Truthy(fixed) then Set(m, PROPERTIES, fixed) else Remove(m, PROPERTIES)
  }

  /** Index/MappingBuilder.php lines 99-101: `$m['_meta']['model'] = $model` when the model name is truthy.
      An absent, null or false `_meta` becomes a fresh array. A `_meta`
      holding another scalar, the empty string included, is left alone
      here; PHP 7.1 and later reject it, and earlier PHP autovivified `""`. */
  function AddModel(m: PhpArray, model: Option<string>): (r: PhpArray)
    ensures model.Some? && TruthyString(model.value) && IsArrayAt(m, META) ==>
      && IsArrayAt(r, META)
      && Lookup(ArrayAt(r, META), MODEL) == Some(Str(model.value))
      && forall k :: k != MODEL ==> Lookup(ArrayAt(r, META), k) == Lookup(ArrayAt(m, META), k)
    ensures model.Some? && TruthyString(model.value) && Autovivifies(Lookup(m, META)) ==>
      Lookup(r, META) == Some(Arr([(MODEL, Str(model.value))]))
    ensures !(model.Some? && TruthyString(model.value)) ==> r == m
    ensures forall k :: k != META ==> Lookup(r, k) == Lookup(m, k)
    ensures UniqueKeys(m) ==> UniqueKeys(r)
  {
    if model.Some? && TruthyString(model.value) then
      if Autovivifies(Lookup(m, META)) then
        Set(m, META, Arr(Set([], MODEL, Str(model.value))))
      else if IsArrayAt(m, META) then
        Set(m, META, Arr(Set(ArrayAt(m, META), MODEL, Str(model.value))))
      else
        m
    else
      m
  }

  /** The intermediate arrays of buildTypeMapping, one per step of
      Index/MappingBuilder.php lines 63-103, in source order. */
  datatype Stages = Stages(
    options: PhpArray, templates: PhpArray, parent: PhpArray,
    properties: PhpArray, meta: PhpArray, done: PhpArray)

  function StagesOf(c: TypeConfig): Stages
  {
    var m1 := ApplyOptions(c.mapping, c);
    var m2 := DropEmptyTemplates(m1);
    var m3 := StripParent(m2);
    var m4 := FixTopProperties(m3);
    var m5 := AddModel(m4, c.model);
    Stages(m1, m2, m3, m4, m5, StripParent(m5))
  }

  /** The array buildTypeMapping assembles, before the empty-object test. */
  function Assemble(c: TypeConfig): (r: PhpArray)
    ensures UniqueKeys(c.mapping) ==> UniqueKeys(r)
  {
    StagesOf(c).done
  }

  /** buildTypeMapping: the assembled array, or the empty-object marker
      when it has no entries. */
  function BuildTypeMapping(c: TypeConfig): (r: TypeMapping)
    ensures r.EmptyObject? <==> |Assemble(c)| == 0
    ensures r.Mapping? ==> |r.entries| > 0
    ensures Body(r) == Assemble(c)
  {
    var m := Assemble(c);
    if |m| == 0 then EmptyObject else Mapping(m)
  }

  // ---------------------------------------------------------------------
  // Index mapping (buildIndexMapping)
  // ---------------------------------------------------------------------

  /** No type after position `i` has the name of type `i`. */
  predicate LastOfItsName(ts: seq<TypeConfig>, i: int)
    requires 0 <= i < |ts|
  {
    forall j :: i < j < |ts| ==> ts[j].name != ts[i].name
  }

  /** The loop `$typeMappings[$name] = buildTypeMapping($type)` over the
      types in order. */
  function CollectTypeMappings(ts: seq<TypeConfig>): (r: seq<(string, TypeMapping)>)
    ensures UniqueKeys(r)
  {
    FromPairs(TypePairs(ts))
  }

  /** The assignments that loop makes, in order: name, then mapping. */
  function TypePairs(ts: seq<TypeConfig>): (ps: seq<(string, TypeMapping)>)
    ensures |ps| == |ts|
  {
    seq(|ts|, i requires 0 <= i < |ts| => (ts[i].name, BuildTypeMapping(ts[i])))
  }

  /** A name is a key of the collected mappings exactly when some type has it. */
  lemma {:induction false} CollectTypeMappingsName(ts: seq<TypeConfig>, n: string)
    ensures n in Keys(CollectTypeMappings(ts)) <==> exists i :: 0 <= i < |ts| && ts[i].name == n
  {
    var ps := TypePairs(ts);
    FromPairsKeys(ps, n);
    if n in Keys(ps) {
      var i :| 0 <= i < |ps| && Keys(ps)[i] == n;
      KeyAt(ps, i);
      assert ps[i].0 == ts[i].name;
    }
    if exists i :: 0 <= i < |ts| && ts[i].name == n {
      var i :| 0 <= i < |ts| && ts[i].name == n;
      KeyAt(ps, i);
      assert ps[i].0 == ts[i].name;
    }
  }

  /** The collected mappings are keyed by exactly the type names, once each. */
  lemma CollectTypeMappingsNames(ts: seq<TypeConfig>)
    ensures UniqueKeys(CollectTypeMappings(ts))
    ensures forall n :: n in Keys(CollectTypeMappings(ts)) <==> exists i :: 0 <= i < |ts| && ts[i].name == n
  {
    forall n
      ensures n in Keys(CollectTypeMappings(ts)) <==> exists i :: 0 <= i < |ts| && ts[i].name == n
    {
      CollectTypeMappingsName(ts, n);
    }
  }

  /** A type name holds the mapping of the last type of that name. */
  lemma CollectTypeMappingsLast(ts: seq<TypeConfig>, i: int)
    requires 0 <= i < |ts| && LastOfItsName(ts, i)
    ensures Lookup(CollectTypeMappings(ts), ts[i].name) == Some(BuildTypeMapping(ts[i]))
  {
    var ps := TypePairs(ts);
    FromPairsLast(ps, i);
  }

  /** buildIndexMapping: `mappings` only when there is a type, keyed by
      exactly the type names; `settings` only when non-empty, and verbatim. */
  function BuildIndexMapping(ic: IndexConfig): (r: IndexMapping)
    ensures r.mappings.Some? <==> |ic.types| > 0
    ensures r.mappings.Some? ==> UniqueKeys(r.mappings.value)
    ensures r.mappings.Some? ==> forall n :: n in Keys(r.mappings.value) <==>
      exists i :: 0 <= i < |ic.types| && ic.types[i].name == n
    ensures r.settings.Some? <==> |ic.settings| > 0
    ensures r.settings.Some? ==> r.settings.value == ic.settings
  {
    CollectTypeMappingsNames(ic.types);
    var typeMappings := CollectTypeMappings(ic.types);
    assert |ic.types| > 0 ==> ic.types[0].name in Keys(typeMappings);
    IndexMapping(
      if |typeMappings| > 0 then Some(typeMappings) else None,
      if |ic.settings| > 0 then Some(ic.settings) else None)
  }

  /** Each type name maps to buildTypeMapping of the last type of that
      name: a later duplicate overwrites an earlier one. */
  lemma IndexMappingOfType(ic: IndexConfig, i: int)
    requires 0 <= i < |ic.types| && LastOfItsName(ic.types, i)
    ensures BuildIndexMapping(ic).mappings.Some?
    ensures Lookup(BuildIndexMapping(ic).mappings.value, ic.types[i].name)
      == Some(BuildTypeMapping(ic.types[i]))
  {
    CollectTypeMappingsLast(ic.types, i);
  }
}

=== FILE: mapping_builder_spec.dfy ===
/**
 What the mapping builder promises, stated independently of how its steps
 compute it, and proved of `MappingBuilder`.
 */
module MappingBuilderSpec {
  import opened Wrappers
  import opened Assoc
  import opened PhpValue
  import opened MappingBuilder

  // ---------------------------------------------------------------------
  // Field normalisation
  // ---------------------------------------------------------------------

  /** The field definition's type is `multi_field`. */
  predicate IsMultiField(a: PhpArray)
  {
    Lookup(a, TYPE) == Some(Str(MULTI_FIELD))
  }

  /** `after` is what normalising the field definition `before` must give:
      no `property_path`; a `type`, the existing one if set and "string"
      otherwise; `fields` normalised only for a multi_field; `properties`
      normalised whenever set; every other attribute unchanged. */
  ghost predicate FieldFixed(before: Value, after: Value)
    decreases before
  {
    match before
    case Arr(a) =>
      LookupIn(a, FIELDS);
      LookupIn(a, PROPERTIES);
      && after.Arr?
      && var b := after.entries;
      && Lookup(b, PROPERTY_PATH).None?
      && Lookup(b, TYPE) == (if IsSet(a, TYPE) then Lookup(a, TYPE) else Some(Str(DEFAULT_TYPE)))
      && (forall k :: k !in FieldKeys ==> Lookup(b, k) == Lookup(a, k))
      && (if IsMultiField(a) && IsSet(a, FIELDS)
          then IsSet(b, FIELDS) && PropertiesFixed(Lookup(a, FIELDS).value, Lookup(b, FIELDS).value)
          else Lookup(b, FIELDS) == Lookup(a, FIELDS))
      && (if IsSet(a, PROPERTIES)
          then IsSet(b, PROPERTIES) && PropertiesFixed(Lookup(a, PROPERTIES).value, Lookup(b, PROPERTIES).value)
          else Lookup(b, PROPERTIES) == Lookup(a, PROPERTIES))
    case Null => after == Arr([(TYPE, Str(DEFAULT_TYPE))])
    case Bool(false) => after == Arr([(TYPE, Str(DEFAULT_TYPE))])
    case _ => after == before
  }

  /** `after` is `before` with the same field names in the same order, and
      every field definition normalised as FieldFixed says. */
  ghost predicate PropertiesFixed(before: Value, after: Value)
    decreases before
  {
    match before
    case Arr(es) =>
      && after.Arr?
      && |after.entries| == |es|
      && forall i :: 0 <= i < |es| ==>
           after.entries[i].0 == es[i].0 && FieldFixed(es[i].1, after.entries[i].1)
    case _ => after == before
  }

  /** fixProperties meets its specification at every level of the tree. */
  lemma {:induction false} FixPropertiesSound(v: Value)
    ensures PropertiesFixed(v, FixProperties(v))
    decreases v
  {
    match v
    case Arr(es) =>
      forall i | 0 <= i < |es|
        ensures FixProperties(v).entries[i].0 == es[i].0
        ensures FieldFixed(es[i].1, FixProperties(v).entries[i].1)
      {
        FixFieldSound(es[i].1);
      }
    case _ =>
  }

  /** One field definition, one level deep: what each attribute becomes. */
  lemma FixAttributesShape(f: Value)
    requires f.Arr?
    ensures var a := f.entries; var b := FixAttributes(f);
      && Lookup(b, PROPERTY_PATH).None?
      && Lookup(b, TYPE) == (if IsSet(a, TYPE) then Lookup(a, TYPE) else Some(Str(DEFAULT_TYPE)))
      && (forall k :: k !in FieldKeys ==> Lookup(b, k) == Lookup(a, k))
      && Lookup(b, FIELDS) == (if IsMultiField(a) && IsSet(a, FIELDS)
                               then Some(FixProperties(Lookup(a, FIELDS).value))
                               else Lookup(a, FIELDS))
      && Lookup(b, PROPERTIES) == (if IsSet(a, PROPERTIES)
                                   then Some(FixProperties(Lookup(a, PROPERTIES).value))
                                   else Lookup(a, PROPERTIES))
  {
  }

  lemma {:induction false} FixFieldSound(f: Value)
    ensures FieldFixed(f, FixField(f))
    decreases f
  {
    match f
    case Arr(a) =>
      LookupIn(a, FIELDS);
      LookupIn(a, PROPERTIES);
      FixAttributesShape(f);
      if IsMultiField(a) && IsSet(a, FIELDS) {
        FixPropertiesSound(Lookup(a, FIELDS).value);
      }
      if IsSet(a, PROPERTIES) {
        FixPropertiesSound(Lookup(a, PROPERTIES).value);
      }
    case _ =>
  }

  /** Normalising a normalised tree changes nothing. */
  lemma {:induction false} FixPropertiesIdempotent(v: Value)
    ensures FixProperties(FixProperties(v)) == FixProperties(v)
    decreases v
  {
    match v
    case Arr(es) =>
      var once := FixProperties(v).entries;
      var twice := FixProperties(FixProperties(v)).entries;
      forall i | 0 <= i < |es|
        ensures twice[i] == once[i]
      {
        FixFieldIdempotent(es[i].1);
      }
    case _ =>
  }

  lemma {:induction false} FixFieldIdempotent(f: Value)
    ensures FixField(FixField(f)) == FixField(f)
    decreases f
  {
    match f
    case Arr(a) =>
      LookupIn(a, FIELDS);
      LookupIn(a, PROPERTIES);
      var b := FixAttributes(f);
      FixAttributesShape(f);
      var b1 := Remove(b, PROPERTY_PATH);
      assert b1 == b;
      assert IsSet(b, TYPE);
      var b3 :=
        if Lookup(b, TYPE) == Some(Str(MULTI_FIELD)) && IsSet(b, FIELDS)
        then Set(b, FIELDS, FixProperties(Lookup(b, FIELDS).value))
        else b;
      if Lookup(b, TYPE) == Some(Str(MULTI_FIELD)) && IsSet(b, FIELDS) {
        assert IsMultiField(a) && IsSet(a, FIELDS);
        FixPropertiesIdempotent(Lookup(a, FIELDS).value);
        SetExisting(b, FIELDS);
      }
      assert b3 == b;
      if IsSet(b, PROPERTIES) {
        assert IsSet(a, PROPERTIES);
        FixPropertiesIdempotent(Lookup(a, PROPERTIES).value);
        SetExisting(b, PROPERTIES);
      }
    case _ =>
  }

  /** The skip list does not exempt anything: a `completion` field loses its
      `property_path` and has its nested `properties` normalised. */
  lemma CompletionFieldNormalised(a: PhpArray)
    requires Lookup(a, TYPE) == Some(Str(SkipTypes[0]))
    ensures FixField(Arr(a)).Arr?
    ensures Lookup(FixField(Arr(a)).entries, PROPERTY_PATH).None?
    ensures Lookup(FixField(Arr(a)).entries, TYPE) == Some(Str("completion"))
    ensures IsSet(a, PROPERTIES) ==>
      Lookup(FixField(Arr(a)).entries, PROPERTIES) == Some(FixProperties(Lookup(a, PROPERTIES).value))
  {
  }

  // ---------------------------------------------------------------------
  // Type mapping
  // ---------------------------------------------------------------------

  /** The type mapping as an array: empty for the empty-object marker. */
  function Out(c: TypeConfig): PhpArray
  {
    Body(BuildTypeMapping(c))
  }

  /** Keys only the option step writes keep, after it, what it left. */
  lemma {:induction false} LaterStepsKeep(c: TypeConfig, k: Key)
    requires k != DYNAMIC_TEMPLATES && k != PARENT && k != PROPERTIES && k != META
    ensures Lookup(Out(c), k) == Lookup(StagesOf(c).options, k)
  {
  }

  /** Options override their keys when set (the analyzer only when truthy);
      otherwise, and for every key the builder does not handle, the raw
      mapping's value survives untouched. */
  lemma {:induction false} OptionOverrideRule(c: TypeConfig, k: Key)
    requires k !in TouchedKeys - OptionKeys
    ensures OptionValue(c, k).Some? ==> Lookup(Out(c), k) == OptionValue(c, k)
    ensures OptionValue(c, k).None? ==> Lookup(Out(c), k) == Lookup(c.mapping, k)
  {
    LaterStepsKeep(c, k);
    ApplyOptionsSpec(c.mapping, c, k);
  }

  /** A set but empty `dynamic_templates` is removed; any other is kept as is. */
  lemma {:induction false} TemplatesRule(c: TypeConfig)
    ensures EmptyTemplates(c.mapping) ==> DYNAMIC_TEMPLATES !in Keys(Out(c))
    ensures !EmptyTemplates(c.mapping) ==>
      Lookup(Out(c), DYNAMIC_TEMPLATES) == Lookup(c.mapping, DYNAMIC_TEMPLATES)
  {
    var st := StagesOf(c);
    ApplyOptionsSpec(c.mapping, c, DYNAMIC_TEMPLATES);
    assert Lookup(Out(c), DYNAMIC_TEMPLATES) == Lookup(st.templates, DYNAMIC_TEMPLATES);
  }

  /** `_parent` never carries `property` or `identifier` in the output; its
      other entries survive; an absent `_parent` stays absent and one that
      the removal empties stays present. */
  lemma {:induction false} ParentRule(c: TypeConfig)
    ensures Lookup(Out(c), PARENT).Some? <==> Lookup(c.mapping, PARENT).Some?
    ensures IsArrayAt(c.mapping, PARENT) ==>
      IsArrayAt(Out(c), PARENT) && ParentCleaned(ArrayAt(c.mapping, PARENT), ArrayAt(Out(c), PARENT))
    ensures !IsArrayAt(c.mapping, PARENT) ==> Lookup(Out(c), PARENT) == Lookup(c.mapping, PARENT)
  {
  }

  /** The defensive second removal of the `_parent` keys finds nothing left
      to remove: no later step puts them back. */
  lemma {:induction false} SecondParentStripIsNoOp(c: TypeConfig)
    ensures StripParent(StagesOf(c).meta) == StagesOf(c).meta
  {
    var st := StagesOf(c);
    assert Lookup(st.meta, PARENT) == Lookup(st.parent, PARENT);
    if IsArrayAt(st.meta, PARENT) {
      var q := ArrayAt(st.meta, PARENT);
      assert IsArrayAt(st.templates, PARENT);
      assert PROPERTY !in Keys(q) && IDENTIFIER !in Keys(q);
      assert Remove(Remove(q, PROPERTY), IDENTIFIER) == q;
      SetExisting(st.meta, PARENT);
    }
  }

  /** `properties` is absent from the output when it was absent, null or
      empty; otherwise it is the normalised field tree. */
  lemma {:induction false} PropertiesRule(c: TypeConfig)
    ensures Lookup(c.mapping, PROPERTIES).None? ==> PROPERTIES !in Keys(Out(c))
    ensures Lookup(c.mapping, PROPERTIES).Some? && !Truthy(Lookup(c.mapping, PROPERTIES).value) ==>
      PROPERTIES !in Keys(Out(c))
    ensures Lookup(c.mapping, PROPERTIES).Some? && Truthy(Lookup(c.mapping, PROPERTIES).value) ==>
      && Lookup(Out(c), PROPERTIES) == Some(FixProperties(Lookup(c.mapping, PROPERTIES).value))
      && PropertiesFixed(Lookup(c.mapping, PROPERTIES).value, Lookup(Out(c), PROPERTIES).value)
  {
    var st := StagesOf(c);
    ApplyOptionsSpec(c.mapping, c, PROPERTIES);
    assert Lookup(st.parent, PROPERTIES) == Lookup(c.mapping, PROPERTIES);
    assert Lookup(Out(c), PROPERTIES) == Lookup(st.properties, PROPERTIES);
    if Lookup(c.mapping, PROPERTIES).Some? {
      FixPropertiesSound(Lookup(c.mapping, PROPERTIES).value);
    }
  }

  /** A truthy model name lands in `_meta.model`, keeping the other `_meta`
      entries; without one `_meta` is untouched. */
  lemma {:induction false} MetaRule(c: TypeConfig)
    ensures c.model.Some? && TruthyString(c.model.value) && IsArrayAt(c.mapping, META) ==>
      && IsArrayAt(Out(c), META)
      && Lookup(ArrayAt(Out(c), META), MODEL) == Some(Str(c.model.value))
      && forall k :: k != MODEL ==> Lookup(ArrayAt(Out(c), META), k) == Lookup(ArrayAt(c.mapping, META), k)
    ensures c.model.Some? && TruthyString(c.model.value) && Autovivifies(Lookup(c.mapping, META)) ==>
      Lookup(Out(c), META) == Some(Arr([(MODEL, Str(c.model.value))]))
    ensures !(c.model.Some? && TruthyString(c.model.value)) ==>
      Lookup(Out(c), META) == Lookup(c.mapping, META)
  {
    var st := StagesOf(c);
    ApplyOptionsSpec(c.mapping, c, META);
    assert Lookup(st.properties, META) == Lookup(c.mapping, META);
    assert Lookup(Out(c), META) == Lookup(st.meta, META);
  }

  /** The marker stands exactly for a mapping with no keys at all. */
  lemma {:induction false} EmptyObjectRule(c: TypeConfig)
    ensures BuildTypeMapping(c).EmptyObject? <==> forall k :: k !in Keys(Assemble(c))
    ensures BuildTypeMapping(c) != Mapping([])
  {
    var m := Assemble(c);
    if |m| > 0 {
      KeyAt(m, 0);
      assert m[0].0 in Keys(m);
    }
  }

  /** A type with no options, no model and an empty raw mapping is sent as `{}`. */
  lemma UnconfiguredTypeIsEmptyObject(c: TypeConfig)
    requires c.mapping == []
    requires c.dynamicDateFormats.None? && c.dateDetection.None? && c.numericDetection.None?
    requires c.dynamic.None? && c.analyzer.None? && c.model.None?
    ensures BuildTypeMapping(c) == EmptyObject
  {
  }
}

=== FILE: object_persister.dfy ===
/**
 The object persister: transforms domain objects into Elastica documents
 and submits them in one bulk call per operation. Each operation is a pure
 function of the persister, its arguments and the client's reply, and
 returns a Run: the objects handed to the transformer, the bulk calls
 made, the errors logged and how the call ended.
 */
module ObjectPersister {
  import opened Wrappers

  type ClassName = string
  type Id = string

  /** A domain object as the persister sees it: its runtime class, and an
      identity the transformer reads its fields from. */
  datatype DomainObject = DomainObject(cls: ClassName, handle: nat)

  /** An Elastica document: identifier, field values and the upsert flag. */
  datatype Document = Document(id: Id, data: seq<(string, string)>, docAsUpsert: bool)

  datatype TransformError = TransformError(message: string)

  /** The model-to-Elastica transformer: `transform($object, $fields)`. */
  type Transformer = (DomainObject, seq<string>) -> Result<Document, TransformError>

  /** The Elastica type the persister writes to, and its index. */
  datatype TypeHandle = TypeHandle(index: string, name: string)

  /** The `$routing` argument of deleteIds: a routing key, or a boolean. */
  datatype Routing = RoutingFlag(flag: bool) | RoutingKey(key: string)

  /** `$routing = false`, the default of deleteManyByIdentifiers. */
  const DefaultRouting: Routing := RoutingFlag(false)

  /** The bulk requests the persister issues. */
  datatype BulkCall =
    | AddDocuments(docs: seq<Document>)
    | UpdateDocuments(docs: seq<Document>)
    | DeleteDocuments(docs: seq<Document>)
    | DeleteIds(ids: seq<Id>, index: string, typeName: string, routing: Routing)

  /** A bulk response reporting failed items: Elastica's BulkException. */
  datatype BulkException = BulkException(failedIds: seq<Id>)

  /** Any other client failure, such as a lost connection. */
  datatype ClientError = ClientError(message: string)

  /** How the client answers a bulk call. */
  datatype Reply = Accepted | BulkFailed(bulk: BulkException) | Failed(other: ClientError)

  /** The client, as the answer it gives to each possible call. */
  type Client = BulkCall -> Reply

  datatype Logger = Logger(name: string)

  datatype Persister = Persister(
    typ: TypeHandle,
    transformer: Transformer,
    objectClass: ClassName,
    fields: seq<string>,
    logger: Option<Logger>)

  /** What an operation can throw. */
  datatype Error =
    | TransformFailed(transformError: TransformError)
    | BulkError(bulkException: BulkException)
    | ClientFailed(clientError: ClientError)

  datatype Outcome = Returned | Threw(error: Error)

  /** The effects of one operation, in the order they happen. */
  datatype Run = Run(
    transformed: seq<DomainObject>,
    calls: seq<BulkCall>,
    logged: seq<BulkException>,
    outcome: Outcome)

  // ---------------------------------------------------------------------
  // Construction
  // ---------------------------------------------------------------------

  /** The constructor: it stores its arguments and sets no logger. */
  function NewPersister(typ: TypeHandle, transformer: Transformer, objectClass: ClassName, fields: seq<string>): (p: Persister)
    ensures p.logger.None?
    ensures p.typ == typ && p.objectClass == objectClass && p.fields == fields
    ensures p.transformer == transformer
  {
    Persister(typ, transformer, objectClass, fields, None)
  }

  /** setLogger: installs the logger and changes nothing else. */
  function SetLogger(p: Persister, l: Logger): (q: Persister)
    ensures q.logger == Some(l)
    ensures q.typ == p.typ && q.objectClass == p.objectClass && q.fields == p.fields
    ensures q.transformer == p.transformer
  {
    p.(logger := Some(l))
  }

  // ---------------------------------------------------------------------
  // handlesObject
  // ---------------------------------------------------------------------

  /** The class table as PHP keeps it: each class, under its lower-cased
      name, mapped to the lower-cased name of its parent class. */
  type Hierarchy = map<ClassName, ClassName>

  /** PHP's ASCII-only lower-casing of one character of a class name. */
  function LowerChar(c: char): char
  {
    if 'A' <= c <= 'Z' then (c as int - 'A' as int + 'a' as int) as char else c
  }

  function Lower(s: string): string
  {
    seq(|s|, i requires 0 <= i < |s| => LowerChar(s[i]))
  }

  /** The key PHP looks a class name up by: one leading `\` is dropped and
      the rest is lower-cased, so class names compare without regard to case. */
  function LookupName(s: ClassName): (k: ClassName)
    ensures |k| == (if |s| > 0 && s[0] == '\\' then |s| - 1 else |s|)
    ensures forall i :: 0 <= i < |k| ==> 'A' > k[i] || k[i] > 'Z'
  {
    Lower(if |s| > 0 && s[0] == '\\' then s[1..] else s)
  }

  /** The class `n` parent links above `c`, if the chain is that long. */
  function Ancestor(h: Hierarchy, c: ClassName, n: nat): Option<ClassName>
  {
    if n == 0 then Some(c)
    else
      match Ancestor(h, c, n - 1)
      case None => None
      case Some(x) => if x in h then Some(h[x]) else None
  }

  /** The class named `c` is the class named `t` or a subclass of it. */
  ghost predicate IsA(h: Hierarchy, c: ClassName, t: ClassName)
  {
    exists n: nat :: Ancestor(h, LookupName(c), n) == Some(LookupName(t))
  }

  /** Once the chain stops, it stays stopped. */
  lemma {:induction false} ChainStops(h: Hierarchy, c: ClassName, k: nat, n: nat)
    requires Ancestor(h, c, k).Some? && Ancestor(h, c, k).value !in h
    requires n > k
    ensures Ancestor(h, c, n).None?
  {
    if n > k + 1 {
      ChainStops(h, c, k, n - 1);
    }
  }

  /** Two equal links of the chain have equal successors. */
  lemma {:induction false} ChainShift(h: Hierarchy, c: ClassName, a: nat, b: nat, m: nat)
    requires Ancestor(h, c, a) == Ancestor(h, c, b)
    ensures Ancestor(h, c, a + m) == Ancestor(h, c, b + m)
  {
    if m > 0 {
      ChainShift(h, c, a, b, m - 1);
    }
  }

  /** A chain that returns to a class it passed repeats its first `k` links. */
  lemma {:induction false} ChainCycles(h: Hierarchy, c: ClassName, j: nat, k: nat, n: nat)
    requires j < k && Ancestor(h, c, j) == Ancestor(h, c, k)
    ensures exists i :: 0 <= i < k && Ancestor(h, c, n) == Ancestor(h, c, i)
    decreases n
  {
    if n >= k {
      var back := n - (k - j);
      ChainShift(h, c, k, j, n - k);
      assert Ancestor(h, c, n) == Ancestor(h, c, back);
      ChainCycles(h, c, j, k, back);
    }
  }

  /** Climbing `n` links to `b` and then `m` more is climbing `n + m`. */
  lemma {:induction false} ChainCompose(h: Hierarchy, a: ClassName, b: ClassName, n: nat, m: nat)
    requires Ancestor(h, a, n) == Some(b)
    ensures Ancestor(h, a, n + m) == Ancestor(h, b, m)
  {
    if m > 0 {
      ChainCompose(h, a, b, n, m - 1);
    }
  }

  /** Every class is an instance of itself, and subclassing is transitive. */
  lemma IsAReflexiveTransitive(h: Hierarchy, a: ClassName, b: ClassName, c: ClassName)
    ensures IsA(h, a, a)
    ensures IsA(h, a, b) && IsA(h, b, c) ==> IsA(h, a, c)
  {
    var a', b', c' := LookupName(a), LookupName(b), LookupName(c);
    assert Ancestor(h, a', 0) == Some(a');
    if IsA(h, a, b) && IsA(h, b, c) {
      var n: nat :| Ancestor(h, a', n) == Some(b');
      var m: nat :| Ancestor(h, b', m) == Some(c');
      ChainCompose(h, a', b', n, m);
    }
  }

  /** A walk that stopped at step `k` without meeting `t`, because the
      chain ended or came back to a class it had passed, never meets `t`. */
  lemma ChainMisses(h: Hierarchy, c: ClassName, t: ClassName, k: nat, cur: ClassName)
    requires Ancestor(h, c, k) == Some(cur) && cur != t
    requires forall i :: 0 <= i < k ==> Ancestor(h, c, i).Some? && Ancestor(h, c, i).value != t
    requires cur !in h || exists j :: 0 <= j < k && Ancestor(h, c, j) == Some(cur)
    ensures forall n: nat :: Ancestor(h, c, n) != Some(t)
  {
    forall n: nat
      ensures Ancestor(h, c, n) != Some(t)
    {
      if cur !in h {
        if n > k {
          ChainStops(h, c, k, n);
        }
      } else {
        var j :| 0 <= j < k && Ancestor(h, c, j) == Some(cur);
        ChainCycles(h, c, j, k, n);
      }
    }
  }

  /** handlesObject: `$object instanceof $this->objectClass`, by walking up
      the parent chain of the object's class and comparing lookup names. */
  method HandlesObject(p: Persister, h: Hierarchy, o: DomainObject) returns (handles: bool)
    ensures handles <==> IsA(h, o.cls, p.objectClass)
  {
    var start := LookupName(o.cls);
    var target := LookupName(p.objectClass);
    var cur := start;
    var seen: set<ClassName> := {};
    ghost var k: nat := 0;
    ghost var step: map<ClassName, nat> := map[];
    while cur != target && cur in h && cur !in seen
      invariant Ancestor(h, start, k) == Some(cur)
      invariant forall i :: 0 <= i < k ==> Ancestor(h, start, i).Some?
      invariant forall i :: 0 <= i < k ==> Ancestor(h, start, i).value != target
      invariant seen == step.Keys && seen <= h.Keys
      invariant forall x :: x in step ==> step[x] < k && Ancestor(h, start, step[x]) == Some(x)
      decreases h.Keys - seen
    {
      seen := seen + {cur};
      step := step[cur := k];
      cur := h[cur];
      k := k + 1;
    }
    assert cur in seen ==> Ancestor(h, start, step[cur]) == Some(cur);
    handles := cur == target;
    if !handles {
      ChainMisses(h, start, target, k, cur);
    }
  }

  /** Lower-casing is idempotent. */
  lemma LowerIdempotent(s: string)
    ensures Lower(Lower(s)) == Lower(s)
  {
    assert forall i :: 0 <= i < |s| ==> LowerChar(LowerChar(s[i])) == LowerChar(s[i]);
  }

  /** The spelling of the configured class does not matter: lower-casing it,
      or prefixing a name without a leading `\` by one, handles the same
      objects. */
  lemma ClassNameSpellings(h: Hierarchy, c: ClassName, t: ClassName)
    ensures IsA(h, c, Lower(t)) <==> IsA(h, c, t)
    ensures (|t| == 0 || t[0] != '\\') ==> (IsA(h, c, "\\" + t) <==> IsA(h, c, t))
  {
    if |t| > 0 && t[0] == '\\' {
      assert Lower(t)[1..] == Lower(t[1..]);
      LowerIdempotent(t[1..]);
    } else {
      LowerIdempotent(t);
      assert ("\\" + t)[1..] == t;
    }
    assert LookupName(Lower(t)) == LookupName(t);
  }

  /** A persister configured with `\Acme\User` handles an object of class
      `acme\user`: class names compare without regard to case. */
  lemma ClassNamesIgnoreCase(h: Hierarchy)
    ensures IsA(h, "acme\\user", "\\Acme\\User")
  {
    assert LookupName("\\Acme\\User") == "acme\\user";
    assert LookupName("acme\\user") == "acme\\user";
    assert Ancestor(h, LookupName("acme\\user"), 0) == Some(LookupName("\\Acme\\User"));
  }

  // ---------------------------------------------------------------------
  // Transforming
  // ---------------------------------------------------------------------

  /** transformToElasticaDocument: the transformer applied with the
      persister's configured fields. */
  function TransformToDocument(p: Persister, o: DomainObject): Result<Document, TransformError>
  {
    p.transformer(o, p.fields)
  }

  /** The documents of the objects transformed so far, and the error that
      stopped the loop, if one did. */
  datatype Batch = Batch(docs: seq<Document>, failure: Option<TransformError>)

  /** The `foreach` that builds `$documents`: it stops at the first object
      the transformer rejects, whose error escapes. */
  function TransformAll(p: Persister, os: seq<DomainObject>): (b: Batch)
    ensures |b.docs| <= |os|
    ensures b.failure.None? ==> |b.docs| == |os|
    ensures b.failure.Some? ==> |b.docs| < |os|
  {
    if os == [] then Batch([], None)
    else
      match TransformToDocument(p, os[0])
      case Failure(e) => Batch([], Some(e))
      case Success(d) =>
        var rest := TransformAll(p, os[1..]);
        Batch([d] + rest.docs, rest.failure)
  }

  /** The batch holds the documents of the leading objects that
      transform, and the error of the first that does not. */
  lemma {:induction false} TransformAllSound(p: Persister, os: seq<DomainObject>)
    ensures forall i :: 0 <= i < |TransformAll(p, os).docs| ==>
      TransformToDocument(p, os[i]) == Success(TransformAll(p, os).docs[i])
    ensures TransformAll(p, os).failure.Some? ==>
      TransformToDocument(p, os[|TransformAll(p, os).docs|]) == Failure(TransformAll(p, os).failure.value)
  {
    if os != [] && TransformToDocument(p, os[0]).Success? {
      TransformAllSound(p, os[1..]);
    }
  }

  /** Every object transforms. */
  ghost predicate AllTransform(p: Persister, os: seq<DomainObject>)
  {
    forall i :: 0 <= i < |os| ==> TransformToDocument(p, os[i]).Success?
  }

  /** `docs` are the transformer's documents of `os`, one each, in order. */
  ghost predicate DocumentsOf(p: Persister, os: seq<DomainObject>, docs: seq<Document>)
  {
    && |docs| == |os|
    && forall i :: 0 <= i < |os| ==> TransformToDocument(p, os[i]) == Success(docs[i])
  }

  /** `docs` are the transformer's documents of `os`, in order, each marked
      as an upsert. */
  ghost predicate UpsertsOf(p: Persister, os: seq<DomainObject>, docs: seq<Document>)
  {
    && |docs| == |os|
    && forall i :: 0 <= i < |os| ==>
         TransformToDocument(p, os[i]).Success?
         && docs[i] == TransformToDocument(p, os[i]).value.(docAsUpsert := true)
  }

  /** The run stopped at the first object that failed to transform: the
      objects before it transformed, its error was thrown, and no bulk call
      was made and nothing logged. */
  ghost predicate FailedFast(p: Persister, os: seq<DomainObject>, r: Run)
  {
    && r.calls == [] && r.logged == []
    && 0 < |r.transformed| <= |os|
    && r.transformed == os[..|r.transformed|]
    && (forall j :: 0 <= j < |r.transformed| - 1 ==> TransformToDocument(p, os[j]).Success?)
    && r.outcome.Threw? && r.outcome.error.TransformFailed?
    && TransformToDocument(p, os[|r.transformed| - 1]) == Failure(r.outcome.error.transformError)
  }

  // ---------------------------------------------------------------------
  // Bulk calls and the error policy
  // ---------------------------------------------------------------------

  /** The persister's error policy for the reply to its one bulk call:
      success returns; a bulk exception is logged once and swallowed when
      a logger is set, and re-thrown unchanged otherwise; any other error
      is thrown and never logged. */
  ghost predicate FollowsPolicy(p: Persister, reply: Reply, logged: seq<BulkException>, outcome: Outcome)
  {
    match reply
    case Accepted => logged == [] && outcome == Returned
    case BulkFailed(e) =>
      if p.logger.Some? then logged == [e] && outcome == Returned
      else logged == [] && outcome == Threw(BulkError(e))
    case Failed(e) => logged == [] && outcome == Threw(ClientFailed(e))
  }

  /** The private `log`: hands the exception to the logger, or re-throws it
      when there is none. */
  function Log(p: Persister, e: BulkException): (r: (seq<BulkException>, Outcome))
    ensures r.1.Returned? <==> p.logger.Some?
    ensures r.1.Returned? ==> r.0 == [e]
    ensures r.1.Threw? ==> r.0 == [] && r.1.error == BulkError(e)
  {
    if p.logger.None? then ([], Threw(BulkError(e))) else ([e], Returned)
  }

  /** `try { <call> } catch (BulkException $e) { $this->log($e); }` */
  function Submit(p: Persister, call: BulkCall, client: Client): (r: Run)
    ensures r.transformed == [] && r.calls == [call]
    ensures FollowsPolicy(p, client(call), r.logged, r.outcome)
  {
    match client(call)
    case Accepted => Run([], [call], [], Returned)
    case BulkFailed(e) =>
      var (logged, outcome) := Log(p, e);
      Run([], [call], logged, outcome)
    case Failed(e) => Run([], [call], [], Threw(ClientFailed(e)))
  }

  /** The shared shape of the three object operations: transform every
      object, then submit one bulk call built from the documents. */
  function TransformThenSubmit(p: Persister, os: seq<DomainObject>, client: Client,
                               build: seq<Document> -> BulkCall): (r: Run)
    ensures AllTransform(p, os) ==>
      && r.transformed == os
      && |r.calls| == 1
      && r.calls[0] == build(TransformAll(p, os).docs)
      && DocumentsOf(p, os, TransformAll(p, os).docs)
      && FollowsPolicy(p, client(r.calls[0]), r.logged, r.outcome)
    ensures !AllTransform(p, os) ==> FailedFast(p, os, r)
  {
    var b := TransformAll(p, os);
    TransformAllSound(p, os);
    if b.failure.Some? then
      Run(os[..|b.docs| + 1], [], [], Threw(TransformFailed(b.failure.value)))
    else
      Submit(p, build(b.docs), client).(transformed := os)
  }

  /** The documents with `setDocAsUpsert(true)` applied to each. */
  function MarkUpserts(docs: seq<Document>): (r: seq<Document>)
    ensures |r| == |docs|
    ensures forall i :: 0 <= i < |docs| ==> r[i] == docs[i].(docAsUpsert := true)
  {
    seq(|docs|, i requires 0 <= i < |docs| => docs[i].(docAsUpsert := true))
  }

  function AddCall(docs: seq<Document>): BulkCall { AddDocuments(docs) }
  function UpdateUpsertsCall(docs: seq<Document>): BulkCall { UpdateDocuments(MarkUpserts(docs)) }
  function DeleteCall(docs: seq<Document>): BulkCall { DeleteDocuments(docs) }

  // ---------------------------------------------------------------------
  // The operations
  // ---------------------------------------------------------------------

  /** insertMany: one addDocuments call with the documents as transformed. */
  function InsertMany(p: Persister, os: seq<DomainObject>, client: Client): (r: Run)
    ensures AllTransform(p, os) ==>
      && r.transformed == os
      && |r.calls| == 1 && r.calls[0].AddDocuments?
      && DocumentsOf(p, os, r.calls[0].docs)
      && FollowsPolicy(p, client(r.calls[0]), r.logged, r.outcome)
    ensures !AllTransform(p, os) ==> FailedFast(p, os, r)
  {
    TransformThenSubmit(p, os, client, AddCall)
  }

  /** replaceMany: one updateDocuments call with every document an upsert. */
  function ReplaceMany(p: Persister, os: seq<DomainObject>, client: Client): (r: Run)
    ensures AllTransform(p, os) ==>
      && r.transformed == os
      && |r.calls| == 1 && r.calls[0].UpdateDocuments?
      && UpsertsOf(p, os, r.calls[0].docs)
      && FollowsPolicy(p, client(r.calls[0]), r.logged, r.outcome)
    ensures !AllTransform(p, os) ==> FailedFast(p, os, r)
  {
    TransformThenSubmit(p, os, client, UpdateUpsertsCall)
  }

  /** deleteMany: one deleteDocuments call with the documents as transformed. */
  function DeleteMany(p: Persister, os: seq<DomainObject>, client: Client): (r: Run)
    ensures AllTransform(p, os) ==>
      && r.transformed == os
      && |r.calls| == 1 && r.calls[0].DeleteDocuments?
      && DocumentsOf(p, os, r.calls[0].docs)
      && FollowsPolicy(p, client(r.calls[0]), r.logged, r.outcome)
    ensures !AllTransform(p, os) ==> FailedFast(p, os, r)
  {
    TransformThenSubmit(p, os, client, DeleteCall)
  }

  /** deleteManyByIdentifiers: one deleteIds call on the persister's index
      and type, with no transformation; the routing is `false` unless given. */
  function DeleteManyByIdentifiers(p: Persister, ids: seq<Id>, client: Client, routing: Routing := DefaultRouting): (r: Run)
    ensures r.transformed == []
    ensures r.calls == [DeleteIds(ids, p.typ.index, p.typ.name, routing)]
    ensures FollowsPolicy(p, client(r.calls[0]), r.logged, r.outcome)
  {
    Submit(p, DeleteIds(ids, p.typ.index, p.typ.name, routing), client)
  }

  /** insertOne: the one object's document in a single addDocuments call. */
  function InsertOne(p: Persister, o: DomainObject, client: Client): (r: Run)
    ensures r.transformed == [o]
    ensures TransformToDocument(p, o).Success? ==>
      && r.calls == [AddDocuments([TransformToDocument(p, o).value])]
      && FollowsPolicy(p, client(r.calls[0]), r.logged, r.outcome)
    ensures TransformToDocument(p, o).Failure? ==>
      r.calls == [] && r.logged == [] && r.outcome == Threw(TransformFailed(TransformToDocument(p, o).error))
  {
    var r := InsertMany(p, [o], client);
    if TransformToDocument(p, o).Success? then
      assert AllTransform(p, [o]);
      assert [o][0] == o;
      assert r.calls[0].docs[0] == TransformToDocument(p, o).value;
      assert r.calls[0].docs == [TransformToDocument(p, o).value];
      r
    else
      assert !AllTransform(p, [o]);
      r
  }

  /** replaceOne: the one object's document, as an upsert, in a single
      updateDocuments call. */
  function ReplaceOne(p: Persister, o: DomainObject, client: Client): (r: Run)
    ensures r.transformed == [o]
    ensures TransformToDocument(p, o).Success? ==>
      && r.calls == [UpdateDocuments([TransformToDocument(p, o).value.(docAsUpsert := true)])]
      && FollowsPolicy(p, client(r.calls[0]), r.logged, r.outcome)
    ensures TransformToDocument(p, o).Failure? ==>
      r.calls == [] && r.logged == [] && r.outcome == Threw(TransformFailed(TransformToDocument(p, o).error))
  {
    var r := ReplaceMany(p, [o], client);
    if TransformToDocument(p, o).Success? then
      assert AllTransform(p, [o]);
      assert [o][0] == o;
      assert r.calls[0].docs[0] == TransformToDocument(p, o).value.(docAsUpsert := true);
      assert r.calls[0].docs == [TransformToDocument(p, o).value.(docAsUpsert := true)];
      r
    else
      assert !AllTransform(p, [o]);
      r
  }

  /** deleteOne: the one object's document in a single deleteDocuments call. */
  function DeleteOne(p: Persister, o: DomainObject, client: Client): (r: Run)
    ensures r.transformed == [o]
    ensures TransformToDocument(p, o).Success? ==>
      && r.calls == [DeleteDocuments([TransformToDocument(p, o).value])]
      && FollowsPolicy(p, client(r.calls[0]), r.logged, r.outcome)
    ensures TransformToDocument(p, o).Failure? ==>
      r.calls == [] && r.logged == [] && r.outcome == Threw(TransformFailed(TransformToDocument(p, o).error))
  {
    var r := DeleteMany(p, [o], client);
    if TransformToDocument(p, o).Success? then
      assert AllTransform(p, [o]);
      assert [o][0] == o;
      assert r.calls[0].docs[0] == TransformToDocument(p, o).value;
      assert r.calls[0].docs == [TransformToDocument(p, o).value];
      r
    else
      assert !AllTransform(p, [o]);
      r
  }

  /** deleteById: a single deleteIds call for the one identifier, with the
      default routing `false`. */
  function DeleteById(p: Persister, id: Id, client: Client): (r: Run)
    ensures r.transformed == []
    ensures r.calls == [DeleteIds([id], p.typ.index, p.typ.name, RoutingFlag(false))]
    ensures FollowsPolicy(p, client(r.calls[0]), r.logged, r.outcome)
  {
    DeleteManyByIdentifiers(p, [id], client)
  }

  // ---------------------------------------------------------------------
  // Properties across operations
  // ---------------------------------------------------------------------

  /** Transforming a concatenation: when every object of `a` transforms,
      the documents are those of `a` followed by those of `b`, and the
      batch fails exactly where `b` fails. */
  lemma {:induction false} TransformAllAppend(p: Persister, a: seq<DomainObject>, b: seq<DomainObject>)
    requires AllTransform(p, a)
    ensures TransformAll(p, a + b).docs == TransformAll(p, a).docs + TransformAll(p, b).docs
    ensures TransformAll(p, a + b).failure == TransformAll(p, b).failure
  {
    if a != [] {
      assert (a + b)[0] == a[0];
      assert (a + b)[1..] == a[1..] + b;
      assert AllTransform(p, a[1..]) by {
        forall i | 0 <= i < |a[1..]|
          ensures TransformToDocument(p, a[1..][i]).Success?
        {
          assert a[1..][i] == a[i + 1];
        }
      }
      assert TransformToDocument(p, a[0]).Success? by {
        assert 0 < |a|;
      }
      var d := TransformToDocument(p, a[0]).value;
      var rest := TransformAll(p, a[1..] + b);
      assert TransformAll(p, a + b) == Batch([d] + rest.docs, rest.failure);
      assert TransformAll(p, a).docs == [d] + TransformAll(p, a[1..]).docs;
      TransformAllAppend(p, a[1..], b);
      assert [d] + (TransformAll(p, a[1..]).docs + TransformAll(p, b).docs)
          == ([d] + TransformAll(p, a[1..]).docs) + TransformAll(p, b).docs;
    } else {
      assert a + b == b;
    }
  }

  /** Inserting `a + b` sends the documents of inserting `a` followed by
      those of inserting `b`, in one call. */
  lemma InsertManyConcatenates(p: Persister, a: seq<DomainObject>, b: seq<DomainObject>, client: Client)
    requires AllTransform(p, a) && AllTransform(p, b)
    ensures AllTransform(p, a + b)
    ensures InsertMany(p, a + b, client).calls[0].docs
         == InsertMany(p, a, client).calls[0].docs + InsertMany(p, b, client).calls[0].docs
  {
    forall i | 0 <= i < |a + b|
      ensures TransformToDocument(p, (a + b)[i]).Success?
    {
      if i < |a| {
        assert (a + b)[i] == a[i];
      } else {
        assert (a + b)[i] == b[i - |a|];
      }
    }
    TransformAllAppend(p, a, b);
  }

  /** Only replacing marks documents as upserts: inserting and deleting
      send the transformer's document unchanged. */
  lemma UpsertOnlyOnReplace(p: Persister, o: DomainObject, client: Client, d: Document)
    requires TransformToDocument(p, o) == Success(d)
    ensures ReplaceOne(p, o, client).calls[0].docs[0].docAsUpsert
    ensures InsertOne(p, o, client).calls[0].docs[0] == d
    ensures DeleteOne(p, o, client).calls[0].docs[0] == d
  {
  }

  /** A bulk failure reaches the caller until a logger is set, and is
      logged once and swallowed afterwards. */
  lemma LoggerDecidesBulkFailure(typ: TypeHandle, transformer: Transformer, objectClass: ClassName,
                                 fields: seq<string>, l: Logger, id: Id, client: Client, e: BulkException)
    requires client(DeleteIds([id], typ.index, typ.name, DefaultRouting)) == BulkFailed(e)
    ensures var r := DeleteById(NewPersister(typ, transformer, objectClass, fields), id, client);
      r.logged == [] && r.outcome == Threw(BulkError(e))
    ensures var r := DeleteById(SetLogger(NewPersister(typ, transformer, objectClass, fields), l), id, client);
      r.logged == [e] && r.outcome == Returned
  {
  }

  /** Documents are built from the fields given to the constructor, before
      and after a logger is set. */
  lemma TransformUsesConstructorFields(typ: TypeHandle, transformer: Transformer, objectClass: ClassName,
                                       fields: seq<string>, l: Logger, o: DomainObject)
    ensures TransformToDocument(NewPersister(typ, transformer, objectClass, fields), o) == transformer(o, fields)
    ensures TransformToDocument(SetLogger(NewPersister(typ, transformer, objectClass, fields), l), o)
         == transformer(o, fields)
  {
  }
}

=== FILE: php_value.dfy ===
/**
 The configuration values the mapping builder rewrites: the scalars and
 arrays a decoded configuration tree holds, with PHP's tests on them.
 */
module PhpValue {
  import opened Wrappers
  import opened Assoc

  /** A PHP array key: a string, or an integer for list positions. */
  datatype Key = Name(name: string) | Index(index: int)

  /** A configuration value. `Arr` is a PHP array, list or map alike. */
  datatype Value =
    | Null
    | Bool(b: bool)
    | Int(i: int)
    | Str(s: string)
    | Arr(entries: seq<(Key, Value)>)

  type PhpArray = seq<(Key, Value)>

  /** PHP's conversion of a string to boolean: only "" and "0" are false. */
  predicate TruthyString(s: string)
  {
    s != "" && s != "0"
  }

  /** PHP's conversion of a value to boolean; `empty($x)` of a set `$x` is its negation. */
  predicate Truthy(v: Value)
  {
    match v
    case Null => false
    case Bool(b) => b
    case Int(i) => i != 0
    case Str(s) => TruthyString(s)
    case Arr(es) => |es| > 0
  }

  /** `isset($m[$k])`: the key is present and its value is not null. */
  predicate IsSet(m: PhpArray, k: Key)
  {
    Lookup(m, k).Some? && Lookup(m, k).value != Null
  }

  /** The key is present and holds an array. */
  predicate IsArrayAt(m: PhpArray, k: Key)
  {
    Lookup(m, k).Some? && Lookup(m, k).value.Arr?
  }

  /** The array stored under `k`. */
  function ArrayAt(m: PhpArray, k: Key): PhpArray
    requires IsArrayAt(m, k)
  {
    Lookup(m, k).value.entries
  }

  /** A value PHP turns into an empty array when an offset of it is
      assigned (`$x['a'] = ...`): an absent entry, `null` or `false`.
      PHP before 7.1 also did this to the empty string; PHP 7.1 and later,
      which this model follows, do not. */
  predicate Autovivifies(v: Option<Value>)
  {
    v.None? || v.value == Null || v.value == Bool(false)
  }

  /** The PHP list `array($xs[0], $xs[1], ...)` of strings. */
  function ListOf(xs: seq<string>): PhpArray
  {
    seq(|xs|, i requires 0 <= i < |xs| => (Index(i), Str(xs[i])))
  }
}

=== FILE: wrappers.dfy ===
/** Failure-carrying wrappers shared by the mapping builder and the persister. */
module Wrappers {

  /** A value that may be missing: PHP's `null` where the source tests `null !== $x`. */
  datatype Option<+T> = None | Some(value: T)

  /** The value of a computation that may raise an error instead. */
  datatype Result<+T, +E> = Success(value: T) | Failure(error: E)
}
